=== FILE: README.md ===
# FairMQ shared-memory message, modelled in Dafny

This project models `FairMQMessageSHM`, the message object of FairMQ's
shared-memory transport. Its payload lives in a chunk of a shared-memory
segment, or inside a separately registered unmanaged region. Only a small
envelope travels over the socket: size, handle and region id. A receiver in
another process uses the envelope to find the same bytes.

The model covers the object's four constructors, the allocate-with-retry
step (`InitializeChunk`), the three `Rebuild` overloads, `GetData`,
`GetSize`, `Copy`, and `CloseMessage` (the destructor is exactly
`CloseMessage`). Each one is a pure transition. It takes the message
record (`Msg`, one field per C++ member) and the `World` it sees, and
returns the new message and world, or a `Fault`. The world has three parts:

- the default segment: its base address, and the size of every live
  chunk by handle (the size passed to `allocate`);
- the region registry: region id to base address in this process;
- the process's memory: a map from address to byte, which `memcpy` reads
  and writes.

Faults are the outcomes the C++ code leaves undefined or fatal:
deallocating a chunk that is not live (`NotLive`), an unknown region, and
`memcpy` through a null local pointer.

The allocation loop runs against a finite schedule of allocator answers.
Each answer is either a granted address, or "no space" plus the value of
the interrupt flag read after the pause. The allocator is trusted to grant
only non-live chunks with a nonzero handle (`GrantsFresh`). In the same
way, the region collaborator is trusted to give every unmanaged region a
nonzero id (`RegionKey`), because id 0 means the default segment.

Files:

- `shared_memory.dfy`: segment, registry, memory, `Result`.
- `meta.dfy`: envelope and socket frame.
- `allocation.dfy`: the polling loop.
- `message.dfy`: the message operations.
- `ownership.dfy`: the chunk-ownership invariant and the properties built on it.
- `resolution.dfy`: address resolution, and what the envelope tells a receiver.
- `lifecycle.dfy`: arbitrary sequences of operations on one message.
- `as_written.dfy`: consequences of the code as written.

The central invariant is `Ownership.Sound`. It says: a message that will
deallocate on close names a live chunk. Every constructor establishes it.
`InitializeChunk`, `Copy` and `CloseMessage` keep it, and so do the rebuilds
of a message that was not handed off. Under `Sound`, close never frees a
chunk twice, and a second close frees nothing.

The model follows the code, not an idealised design, where they differ:

- `GetData` caches the resolved address only for region messages. A
  default-segment message without a local pointer translates its handle on
  every call.
- No field records that a message owns its chunk. Ownership is derived from
  handle ≠ 0, not queued, and region id 0 (`WillFree`).
- `Rebuild()` keeps the size, the local pointer and the region id.
- `CloseMessage` zeroes the handle only when it deallocates. The
  allocation loop runs only while the handle is 0, so a chunk that was not
  freed is reused.
- The meta-created flag is never cleared, so a frame can be closed twice.
- The constructors do not release anything first: they start from fresh
  member initialisers.

`lifecycle.dfy` runs a message through any sequence of operations, including
the socket's send path setting the queued flag. `Lifecycle.NoDoubleFree`
proves that such a run never deallocates a chunk twice, provided no other
owner frees the chunk. A run also stops if the allocator grants a chunk it
may not grant (`BadGrant`).

The lemmas in `as_written.dfy` state where this leads:

- After `Rebuild()`, the message reports its old size and the address of
  its freed chunk.
- `Rebuild(size)` on a message already handed to the socket takes that
  chunk back. The destructor then frees it a second time.
- `Rebuild(data, size)` of a sent message records the new size against
  the sent chunk and copies all `size` bytes into it. When the chunk was
  allocated smaller, this writes past its end.
- An interrupted rebuild closes the frame twice.
- A region message whose data starts at the region's base has handle 0,
  which the code reads as "no chunk".

## Model

| member | source | states |
|---|---|---|
| `Allocation.PollAllocate` | fairmq/shmem/FairMQMessageSHM.cxx:108-128 | the loop stops at the first grant or at the first failure that sees the interrupt flag, and reports how many times it called allocate; every earlier call failed with the flag clear; it is still polling only when every answer so far is a transient failure |
| `Allocation.RetryOnlyDelays` | fairmq/shmem/FairMQMessageSHM.cxx:114-125 | transient failures before a schedule change only the number of calls, never the outcome or the granted address |
| `Allocation.GrantIsFresh` | fairmq/shmem/FairMQMessageSHM.cxx:112-127 | the address the loop ends with is one the allocator may grant: a non-live chunk whose handle is not 0, so the loop ends |
| `SharedMemory.Write` | fairmq/shmem/FairMQMessageSHM.cxx:66 | memcpy puts the i-th byte of the data at destination + i and leaves every other address alone |
| `SharedMemory.ReadAfterWrite` | fairmq/shmem/FairMQMessageSHM.cxx:178 | reading the destination range after a memcpy yields exactly the copied bytes |
| `SharedMemory.ReadAcrossWrite` | fairmq/shmem/FairMQMessageSHM.cxx:248 | a memcpy leaves every byte range it does not overlap unchanged |
| `MessageSHM.NewEmpty` | fairmq/shmem/FairMQMessageSHM.cxx:24-39 | the default message has handle 0, size 0, region 0, queued clear, no local pointer or cached region, an empty open frame with meta-created set, and nothing to free |
| `MessageSHM.WriteEnvelope` | fairmq/shmem/FairMQMessageSHM.cxx:130-145 | after the loop the size is recorded; the frame is created exactly when the socket library allows, and then holds (size, handle, region id) with meta-created set; otherwise frame and flag are untouched; the world never changes |
| `MessageSHM.InitializeChunk` | fairmq/shmem/FairMQMessageSHM.cxx:106-146 | a held chunk is reused without allocating; otherwise exactly one fresh chunk of `size` bytes is added to the live set, at the granted address; when interrupted or still polling, the message and world are untouched; success iff the frame could be created and a chunk is held, a meta failure iff not; on success size = the argument and the envelope is (size, handle, region id) |
| `MessageSHM.NewSized` | fairmq/shmem/FairMQMessageSHM.cxx:41-52 | succeeds exactly when the allocator grants and the frame is created, and is interrupted exactly when the allocator reports the flag; region 0 and queued clear always; a granted chunk of `size` bytes is fresh and the message's to free, even when the frame fails; on success the envelope is (size, handle, 0) with meta-created set, otherwise there is no frame and meta-created is clear; without a grant the message is exactly the member initialisers' state and the world is unchanged |
| `MessageSHM.AdoptBuffer` | fairmq/shmem/FairMQMessageSHM.cxx:176-187 | copy and release happen only when InitializeChunk succeeds; then the bytes at the local pointer are the caller's first `size` bytes, nothing else in memory changes, and the buffer is released once, by its callback if given, else by free; a reused chunk without a local pointer faults |
| `MessageSHM.NewAdopt` | fairmq/shmem/FairMQMessageSHM.cxx:54-76 | succeeds exactly when the allocator grants and the frame is created; a granted chunk of `size` bytes is fresh and the message's to free, even when the frame fails; on success the envelope is (size, handle, 0) with meta-created set, the chunk holds the caller's bytes, and the caller's buffer is released once; otherwise nothing is copied and nothing released; without a grant the message is the member initialisers' state and the world is unchanged |
| `MessageSHM.NewInRegion` | fairmq/shmem/FairMQMessageSHM.cxx:78-104 | region id nonzero, region base + handle = data, size as given, nothing to free; the envelope is (size, data - base, region id) exactly when the frame was created |
| `MessageSHM.CloseMessage` | fairmq/shmem/FairMQMessageSHM.cxx:262-282 | deallocates exactly when handle ≠ 0, not queued and region 0, and then zeroes the handle; faults exactly when that chunk is not live; afterwards nothing is left to free; the frame is closed iff meta-created, which is reported as failing when the frame was not open; nothing else changes |
| `MessageSHM.RebuildEmpty` | fairmq/shmem/FairMQMessageSHM.cxx:148-159 | faults exactly when the message owns a chunk that is no longer live; otherwise the owned chunk, and only it, leaves the live set and the handle becomes 0, any other handle is kept; the frame is empty and open, meta-created set, queued cleared; size, local pointer and region are kept; the result will free on close exactly when the message had been handed to the socket with a default-segment chunk |
| `MessageSHM.RebuildSized` | fairmq/shmem/FairMQMessageSHM.cxx:161-168 | faults exactly when the message owns a chunk that is no longer live; a handle that close leaves in place (sent, or in a region) is reused with the new size and nothing is allocated; otherwise the owned chunk is freed and, if the allocator grants, a fresh chunk of `size` bytes replaces it; if not, the handle is 0 and size and meta-created are kept; queued is always cleared; on success the envelope is (size, handle, region id) |
| `MessageSHM.RebuildAdopt` | fairmq/shmem/FairMQMessageSHM.cxx:170-188 | faults on a double free, or on a reused handle with no local pointer; succeeds exactly when the frame is created and a handle is reused or granted; the owned chunk is freed and a granted one of `size` bytes added, or the reused one kept; on success the envelope is (size, handle, region id) with meta-created set, the caller's bytes are at the local pointer, no other byte changes and the buffer is released once; otherwise nothing is copied or released |
| `MessageSHM.GetData` | fairmq/shmem/FairMQMessageSHM.cxx:195-217 | returns the local pointer if set; else, for region 0, the translated handle with the message unchanged; else region base + handle, using the cached region if any and looking it up otherwise, and caching the address and the region; fails only for an unknown region with no cache |
| `MessageSHM.GetDataIgnoresLiveSet` | fairmq/shmem/FairMQMessageSHM.cxx:195-217 | GetData depends only on the segment's mapping and the region registry, not on which chunks are live |
| `MessageSHM.CopyBytes` | fairmq/shmem/FairMQMessageSHM.cxx:246-249 | the final memcpy of a copy fails only when the source's region is unknown; otherwise the target's chunk holds the bytes read at the source's address, the target is unchanged, and only the memory changes |
| `MessageSHM.CopyKeepsSourceBytes` | fairmq/shmem/FairMQMessageSHM.cxx:248 | the memcpy of a copy leaves the source's bytes intact when the two ranges do not overlap (an assumption: the allocator's promise covers handles, not byte ranges) |
| `MessageSHM.Copy` | fairmq/shmem/FairMQMessageSHM.cxx:239-260 | a target with a chunk, or a source without one, leaves everything unchanged; otherwise the copy completes exactly when the allocator grants, the frame is created and the source resolves, and faults exactly when the source does not resolve; without a grant nothing changes; without a frame the target keeps a fresh, unfilled chunk and its other fields; a completed copy gives the target a fresh chunk of the source's size holding the bytes read at the source's address, an envelope (size, handle, region id) with meta-created set, and its region, queued flag and cached region unchanged, so a default-segment target that was not handed off will free that chunk; the source changes only in its caches |
| `Ownership.ConstructorsAreSound` | fairmq/shmem/FairMQMessageSHM.cxx:24-104 | every constructor yields a message that, if it will free on close, names a live chunk |
| `Ownership.CloseFreesAtMostOnce` | fairmq/shmem/FairMQMessageSHM.cxx:262-282 | closing a sound message succeeds and frees at most its own chunk; a second close (the destructor) succeeds and changes nothing |
| `Ownership.RegionMessageNeverFrees` | fairmq/shmem/FairMQMessageSHM.cxx:262-268 | closing a region message, closing it twice, or `Rebuild()` leave the world unchanged, and the handle stays the offset into the region |
| `Ownership.InitializeKeepsSound` | fairmq/shmem/FairMQMessageSHM.cxx:106-146 | InitializeChunk keeps the ownership invariant |
| `Ownership.RebuildKeepsSound` | fairmq/shmem/FairMQMessageSHM.cxx:148-188 | `Rebuild()` and `Rebuild(size)` succeed and keep the invariant, and `Rebuild(data, …)` keeps it when it succeeds, whenever the chunk the message names would still be live if it had not been handed off |
| `Ownership.CopyKeepsSound` | fairmq/shmem/FairMQMessageSHM.cxx:239-260 | Copy keeps the invariant for target and source, and the target never owns the source's chunk |
| `Resolution.SizeTravelsWithEnvelope` | fairmq/shmem/FairMQMessageSHM.cxx:219-222 | GetSize reports the size a successful InitializeChunk was given and its envelope carries, and a received message reports its envelope's size |
| `Resolution.RegionResolutionIsCached` | fairmq/shmem/FairMQMessageSHM.cxx:207-215 | after one successful GetData, a region message returns the same address and state on every later call, whatever the registry then holds |
| `Resolution.RegionLookupAtMostOnce` | fairmq/shmem/FairMQMessageSHM.cxx:209-212 | with a cached region, GetData does not depend on the registry |
| `Resolution.SegmentResolutionIsNotCached` | fairmq/shmem/FairMQMessageSHM.cxx:203-206 | for a default-segment message without a local pointer, GetData leaves the message unchanged and its result changes exactly when the segment's mapping changes |
| `Resolution.RegionEnvelopeLocatesPayload` | fairmq/shmem/FairMQMessageSHM.cxx:88-100 | a receiver rebuilding a message from a region envelope finds the data at the same offset from its own mapping of the region, with the same size |
| `Resolution.SegmentEnvelopeLocatesPayload` | fairmq/shmem/FairMQMessageSHM.cxx:127-141 | a receiver with the same segment mapping resolves the envelope of a sized message to the sender's local pointer, with the same size |
| `Ownership.EmptyMessageHoldsNothing` | fairmq/shmem/FairMQMessageSHM.cxx:24-39 | the default message has size 0, closing it changes nothing, and Copy from it is refused with no change |
| `Lifecycle.ConstructorsAreHeld` | fairmq/shmem/FairMQMessageSHM.cxx:24-104 | every constructor yields a message whose default-segment chunk, if any, is live |
| `Lifecycle.CloseKeepsHeld` | fairmq/shmem/FairMQMessageSHM.cxx:262-268 | closing a message whose default-segment chunk is live succeeds and leaves it, queued or not, with a live chunk or none |
| `Lifecycle.InitializeKeepsHeld` | fairmq/shmem/FairMQMessageSHM.cxx:106-146 | InitializeChunk leaves the message naming a live chunk or none |
| `Lifecycle.RebuildToSizeKeepsHeld` | fairmq/shmem/FairMQMessageSHM.cxx:161-168 | Rebuild(size), also after a send, never double-frees and leaves the chunk live |
| `Lifecycle.RebuildFromBufferKeepsHeld` | fairmq/shmem/FairMQMessageSHM.cxx:170-188 | Rebuild(data, size, ffn, hint), also after a send, never double-frees and leaves the chunk live |
| `Lifecycle.CopyFromKeepsHeld` | fairmq/shmem/FairMQMessageSHM.cxx:239-260 | Copy never double-frees and leaves the target's chunk live |
| `Lifecycle.ApplyKeepsHeld` | fairmq/shmem/FairMQMessageSHM.cxx:148-282 | no single operation (rebuilds, GetData, Copy, close, send) frees a chunk twice or leaves the message naming a dead chunk |
| `Lifecycle.NoDoubleFree` | fairmq/shmem/FairMQMessageSHM.cxx:262-268 | any sequence of operations on a message whose chunk no one else frees never deallocates a chunk that is not live |
| `AsWritten.RebuildEmptyKeepsStaleView` | fairmq/shmem/FairMQMessageSHM.cxx:148-159 | after Rebuild() of an owning message the chunk is freed and the handle is 0, but GetSize reports the old size and GetData returns the freed chunk's address |
| `AsWritten.RebuildAfterSendReusesChunk` | fairmq/shmem/FairMQMessageSHM.cxx:161-168 | Rebuild(size) of a queued message allocates nothing and takes back the handed-off handle, which it will now free; closing faults if that chunk was already freed |
| `AsWritten.SendRebuildDestroyFreesTwice` | fairmq/shmem/FairMQMessageSHM.cxx:262-268 | a concrete run (allocate, send, receiver frees, rebuild, destroy) in which the destructor deallocates a chunk that is no longer live |
| `AsWritten.RebuildAfterSendOverrunsChunk` | fairmq/shmem/FairMQMessageSHM.cxx:170-188 | Rebuild(data, size) of a sent message whose chunk was allocated for fewer than `size` bytes reuses that chunk, reports the larger size, and overwrites the byte just past the chunk's end with the caller's data |
| `AsWritten.InterruptedRebuildClosesFrameTwice` | fairmq/shmem/FairMQMessageSHM.cxx:270-276 | an interrupted Rebuild(size) leaves meta-created set over a closed frame with handle 0 and the old size, and the next close reports a failed frame close |
| `AsWritten.RegionBaseLooksUninitialized` | fairmq/shmem/FairMQMessageSHM.cxx:239-260 | a region message at the region's base has handle 0: Copy refuses it as a source; Rebuild(size) gives it a default-segment chunk whose envelope names the region and which close never frees |

## Left out

- The socket library calls (`zmq_msg_init`, `zmq_msg_init_size`, `zmq_msg_close`, `zmq_msg_data`) are a frame state. A failing `zmq_msg_init` is only logged and the flag is set anyway, so the model takes its success path. A failing `zmq_msg_init_size` is the `frameOk` argument.
- The byte layout of `MetaHeader` is defined in FairMQShmCommon.h, which is not part of this model; the envelope is a record of its three fields.
- `Manager::Instance().Segment()` and `FairMQUnmanagedRegionSHM::GetRemoteRegion` are replaced by the `World` argument. A failing region lookup, fatal in the C++ code, is `Err(UnknownRegion)`.
- The 50 ms pause and the atomic interrupt flag are folded into the schedule of allocator answers. The loop's possible wait without end is the `StillPolling` status when the schedule ends undecided.
- The socket's send path, which sets the queued flag, and its receive path, which builds a message from an envelope, are not part of this model. The lemmas stand in for them by setting `queued` and by `Resolution.Received`.
- Fresh memory has unspecified contents in C++; the model reads never-written addresses as 0.
- Integer widths: sizes, handles, addresses and region ids are unbounded integers, so overflow of `size_t` or pointer arithmetic is not modelled. A null pointer is `None`, not address 0.
- `MessageSHM.NewInRegion`: region ids are positive by type (`RegionKey`). The code copies the region's id, and what guarantees it is nonzero lies in the region implementation, which is not part of this model. `Ownership.RegionMessageNeverFrees`, `Ownership.ConstructorsAreSound` and `Lifecycle.ConstructorsAreHeld` rest on this promise.
- Concurrency between processes sharing the segment is not modelled; each transition is atomic.
- Logging, and the stubs `GetMessage`, `SetMessage`, `SetDeviceId` and `GetType`, have no behaviour to model.
- `MessageSHM.NewAdopt`: "released exactly once" is stated as one optional release value per call; the model has no callback that could be invoked more than once.

=== FILE: allocation.dfy ===
/**
  The polling allocation loop. The allocator's answers and the interrupt flag
  belong to other threads and processes, so the loop is driven by a finite
  schedule: for each call of `allocate`, either the address it granted, or
  "no space" together with the value of the interrupt flag read after the
  pause. A schedule that ends before the loop has decided leaves it still
  polling, which is where the real loop may wait forever.
 */
module Allocation {
  import opened SharedMemory

  datatype Attempt = Granted(addr: Addr) | Exhausted(interrupted: bool)

  /** The outcome of the loop and how many times it called `allocate`. */
  datatype Poll = Got(addr: Addr, tries: nat) | Stopped(tries: nat) | Polling

  /** Every answer is "no space" with the interrupt flag still clear. */
  predicate Transient(s: seq<Attempt>) {
    forall i :: 0 <= i < |s| ==> s[i] == Exhausted(false)
  }

  /** The allocator only grants chunks it may grant. */
  predicate GrantsFresh(seg: Segment, s: seq<Attempt>) {
    forall i :: 0 <= i < |s| && s[i].Granted? ==> seg.CanGrant(s[i].addr)
  }

  /** The loop retries after every transient failure and stops at the first
      grant or at the first failure that finds the interrupt flag set; only
      the last of its calls to `allocate` succeeds. */
  function PollAllocate(s: seq<Attempt>): (p: Poll)
    ensures p.Got? ==> 0 < p.tries <= |s| && s[p.tries - 1] == Granted(p.addr)
    ensures p.Stopped? ==> 0 < p.tries <= |s| && s[p.tries - 1] == Exhausted(true)
    ensures !p.Polling? ==> forall i :: 0 <= i < p.tries - 1 ==> s[i] == Exhausted(false)
    ensures p.Polling? ==> Transient(s)
  {
    if |s| == 0 then Polling
    else
      match s[0]
      case Granted(a) => Got(a, 1)
      case Exhausted(true) => Stopped(1)
      case Exhausted(false) =>
        var rest := PollAllocate(s[1..]);
        match rest
        case Got(a, n) => Got(a, n + 1)
        case Stopped(n) => Stopped(n + 1)
        case Polling => Polling
  }

  /** A granted address is always one the allocator may grant. */
  lemma GrantIsFresh(seg: Segment, s: seq<Attempt>)
    requires GrantsFresh(seg, s)
    ensures PollAllocate(s).Got? ==> seg.CanGrant(PollAllocate(s).addr)
  {
    var p := PollAllocate(s);
    if p.Got? {
      assert s[p.tries - 1].Granted?;
    }
  }

  /** Transient failures in front of a schedule only delay the loop: the
      outcome is the same, after as many more calls. */
  lemma {:induction false} RetryOnlyDelays(k: nat, s: seq<Attempt>)
    ensures PollAllocate(seq(k, _ => Exhausted(false)) + s) ==
      match PollAllocate(s)
      case Got(a, n) => Got(a, n + k)
      case Stopped(n) => Stopped(n + k)
      case Polling => Polling
  {
    if k > 0 {
      var t := seq(k, _ => Exhausted(false)) + s;
      assert t[0] == Exhausted(false);
      assert t[1..] == seq(k - 1, _ => Exhausted(false)) + s;
      RetryOnlyDelays(k - 1, s);
    } else {
      assert seq(k, _ => Exhausted(false)) + s == s;
    }
  }
}

=== FILE: as_written.dfy ===
/**
  Consequences of the code as written that a caller can run into: the
  handle 0 doubles as "no chunk", CloseMessage zeroes the handle only when it
  deallocates, Rebuild() keeps size, local pointer and region id, and the
  meta-created flag is never cleared.
 */
module AsWritten {
  import opened SharedMemory
  import opened Meta
  import opened Allocation
  import opened MessageSHM

  /** Rebuild() of a message that owns its chunk frees the chunk but keeps
      the old size and local pointer: GetSize still reports the old size and
      GetData still returns the freed chunk's address. */
  lemma RebuildEmptyKeepsStaleView(m: Msg, w: World)
    requires WillFree(m) && m.handle in w.seg.live && m.localPtr.Some?
    ensures RebuildEmpty(m, w).Ok?
    ensures var s := RebuildEmpty(m, w).value;
      && s.msg.handle == 0 && m.handle !in s.world.seg.live
      && GetSize(s.msg) == GetSize(m)
      && GetData(s.msg, s.world) == Ok(Data(m.localPtr.value, s.msg))
  {
  }

  /** Rebuild(size) of a message already handed to the socket: close leaves
      the handle (the chunk is not this message's to free), the queued flag is
      cleared, and InitializeChunk then reuses that handle instead of
      allocating. The message now deallocates the handed-off chunk on close,
      which faults if its new owner has already freed it. */
  lemma RebuildAfterSendReusesChunk(m: Msg, w: World, size: nat, sched: seq<Attempt>, frameOk: bool)
    requires m.queued && m.regionId == 0 && m.handle != 0
    requires GrantsFresh(w.seg, sched)
    ensures GrantsFreshAfterClose(m, w, sched)
    ensures RebuildSized(m, w, size, sched, frameOk).Ok?
    ensures var i := RebuildSized(m, w, size, sched, frameOk).value;
      && i.world.seg == w.seg && i.msg.handle == m.handle && WillFree(i.msg)
      && (m.handle !in w.seg.live ==> CloseMessage(i.msg, i.world) == Err(NotLive(m.handle)))
  {
  }

  /** One run of the above: a sized message is sent, the receiver frees its
      chunk, the sender rebuilds the message and destroys it, and the
      destructor deallocates the same chunk a second time. */
  lemma SendRebuildDestroyFreesTwice()
    ensures var w := World(Segment(4096, map[]), map[], map[]);
      var sent := NewSized(w, 8, [Exhausted(false), Granted(4160)], true);
      && sent.status == Initialized && sent.msg.handle == 64
      && sent.world.seg.Deallocate(4160).Ok?
      && var afterReceive := sent.world.(seg := sent.world.seg.Deallocate(4160).value);
         var queued := sent.msg.(queued := true);
         && RebuildSized(queued, afterReceive, 16, [], true).Ok?
         && var rebuilt := RebuildSized(queued, afterReceive, 16, [], true).value;
            CloseMessage(rebuilt.msg, rebuilt.world) == Err(NotLive(64))
  {
    var w := World(Segment(4096, map[]), map[], map[]);
    var s := [Exhausted(false), Granted(4160)];
    assert s[1..] == [Granted(4160)];
    assert PollAllocate(s) == Got(4160, 2);
    var sent := NewSized(w, 8, s, true);
    var afterReceive := sent.world.(seg := sent.world.seg.Deallocate(4160).value);
    RebuildAfterSendReusesChunk(sent.msg.(queued := true), afterReceive, 16, [], true);
  }

  /** Rebuild(data, size) of a message already handed to the socket reuses
      its chunk, allocated for fewer bytes than `size`, records the new size
      against it and copies all `size` bytes: the byte just past the chunk's
      end is overwritten with the caller's data. */
  lemma RebuildAfterSendOverrunsChunk(m: Msg, w: World, data: seq<Byte>, ffn: Option<nat>, hint: Addr,
                                      sched: seq<Attempt>)
    requires m.queued && m.regionId == 0 && m.handle != 0 && m.handle in w.seg.live
    requires m.localPtr == Some(w.seg.AddressOf(m.handle))
    requires w.seg.live[m.handle] < |data|
    requires GrantsFresh(w.seg, sched)
    ensures GrantsFreshAfterClose(m, w, sched)
    ensures var r := RebuildAdopt(m, w, data, |data|, ffn, hint, sched, true);
      && r.Ok? && r.value.init.status == Initialized
      && r.value.init.msg.handle == m.handle && r.value.init.world.seg.live == w.seg.live
      && r.value.init.world.seg.live[m.handle] < GetSize(r.value.init.msg)
      && At(r.value.init.world.mem, w.seg.AddressOf(m.handle) + w.seg.live[m.handle]) == data[w.seg.live[m.handle]]
  {
    var r := RebuildAdopt(m, w, data, |data|, ffn, hint, sched, true);
    var k := w.seg.live[m.handle];
    assert Read(r.value.init.world.mem, m.localPtr.value, |data|)[k] == data[..|data|][k];
  }

  /** An interrupted Rebuild(size) leaves the meta-created flag set over a
      closed frame, so the destructor closes the frame a second time (which
      the socket library rejects and the code only logs). */
  lemma InterruptedRebuildClosesFrameTwice(m: Msg, w: World, size: nat, sched: seq<Attempt>)
    requires WillFree(m) && m.handle in w.seg.live && m.metaCreated
    requires GrantsFreshAfterClose(m, w, sched)
    requires PollAllocate(sched).Stopped?
    ensures RebuildSized(m, w, size, sched, true).Ok?
    ensures var i := RebuildSized(m, w, size, sched, true).value;
      && i.status == Interrupted && i.msg.handle == 0 && GetSize(i.msg) == GetSize(m)
      && i.msg.metaCreated && i.msg.frame == ClosedFrame
      && CloseMessage(i.msg, i.world).Ok? && CloseMessage(i.msg, i.world).value.frameCloseFailed
  {
  }

  /** A region message whose data starts at the region's base has handle 0,
      which the code reads as "no chunk": Copy refuses it as a source, and
      Rebuild(size) allocates a default-segment chunk while keeping the
      region id, so the envelope pairs that handle with the region and close
      never frees the chunk. */
  lemma RegionBaseLooksUninitialized(region: UnmanagedRegion, size: nat, frameOk: bool, w: World,
                                     target: Msg, n: nat, sched: seq<Attempt>)
    requires target.handle == 0
    requires GrantsFresh(w.seg, sched)
    ensures var m := NewInRegion(region, region.base, size, frameOk);
      && m.handle == 0 && GetSize(m) == size
      && Copy(target, m, w, sched, frameOk) == Ok(CopyResult(SourceUninitialized, target, m, w))
    ensures var m := NewInRegion(region, region.base, size, frameOk);
      && GrantsFreshAfterClose(m, w, sched)
      && RebuildSized(m, w, n, sched, true).Ok?
      && var i := RebuildSized(m, w, n, sched, true).value;
         i.status == Initialized ==>
           && i.msg.handle !in w.seg.live && i.msg.handle in i.world.seg.live
           && i.msg.frame == HeaderFrame(Envelope(n, i.msg.handle, region.id))
           && CloseMessage(i.msg, i.world).Ok?
           && i.msg.handle in CloseMessage(i.msg, i.world).value.world.seg.live
  {
  }
}

=== FILE: lifecycle.dfy ===
/**
  A message's whole life as a sequence of operations, including the
  socket's send path setting the queued flag. As long as no other owner
  frees its chunk, no sequence of operations makes the message free a chunk
  twice.
 */
module Lifecycle {
  import opened SharedMemory
  import opened Allocation
  import opened MessageSHM

  datatype Op =
    | RebuildToEmpty
    | RebuildToSize(size: nat, sched: seq<Attempt>, frameOk: bool)
    | RebuildFromBuffer(data: seq<Byte>, ffn: Option<nat>, hint: Addr, sched: seq<Attempt>, frameOk: bool)
    | ResolveData
    | CopyFrom(src: Msg, sched: seq<Attempt>, frameOk: bool)
    | Close
    | Send   // the socket's send path hands the chunk over

  /** One operation. An allocator that grants a chunk it may not grant ends
      the run with `BadGrant`; the message is not to blame for that. */
  function Apply(m: Msg, w: World, op: Op): Result<Step> {
    match op
    case RebuildToEmpty => RebuildEmpty(m, w)
    case RebuildToSize(size, sched, frameOk) =>
      if !GrantsFreshAfterClose(m, w, sched) then Err(BadGrant)
      else
        var i :- RebuildSized(m, w, size, sched, frameOk);
        Ok(Step(i.msg, i.world))
    case RebuildFromBuffer(data, ffn, hint, sched, frameOk) =>
      if !GrantsFreshAfterClose(m, w, sched) then Err(BadGrant)
      else
        var a :- RebuildAdopt(m, w, data, |data|, ffn, hint, sched, frameOk);
        Ok(Step(a.init.msg, a.init.world))
    case ResolveData =>
      var d :- GetData(m, w);
      Ok(Step(d.msg, w))
    case CopyFrom(src, sched, frameOk) =>
      if !GrantsFresh(w.seg, sched) then Err(BadGrant)
      else
        var c :- Copy(m, src, w, sched, frameOk);
        Ok(Step(c.msg, c.world))
    case Close =>
      var c :- CloseMessage(m, w);
      Ok(Step(c.msg, c.world))
    case Send => Ok(Step(m.(queued := true), w))
  }

  function Run(m: Msg, w: World, ops: seq<Op>): Result<Step>
    decreases |ops|
  {
    if |ops| == 0 then Ok(Step(m, w))
    else
      var s :- Apply(m, w, ops[0]);
      Run(s.msg, s.world, ops[1..])
  }

  /** The default-segment chunk the message names is live, whether or not
      it has been handed to the socket. */
  predicate Held(m: Msg, w: World) {
    m.handle != 0 && m.regionId == 0 ==> m.handle in w.seg.live
  }

  /** Every constructor yields a message that holds its chunk, so the
      theorem below applies to every message a program can build. */
  lemma ConstructorsAreHeld(w: World, data: seq<Byte>, size: nat, ffn: Option<nat>, hint: Addr,
                            sched: seq<Attempt>, frameOk: bool, region: UnmanagedRegion, at: Addr)
    requires size <= |data|
    requires GrantsFresh(w.seg, sched)
    ensures Held(NewEmpty(), w)
    ensures Held(NewSized(w, size, sched, frameOk).msg, NewSized(w, size, sched, frameOk).world)
    ensures var a := NewAdopt(w, data, size, ffn, hint, sched, frameOk); Held(a.init.msg, a.init.world)
    ensures Held(NewInRegion(region, at, size, frameOk), w)
  {
  }

  /** Closing keeps the chunk held and never frees twice. */
  lemma CloseKeepsHeld(m: Msg, w: World)
    requires Held(m, w)
    ensures CloseMessage(m, w).Ok?
    ensures Held(CloseMessage(m, w).value.msg, CloseMessage(m, w).value.world)
    ensures Held(CloseMessage(m, w).value.msg.(queued := false), CloseMessage(m, w).value.world)
  {
  }

  /** InitializeChunk keeps the chunk held. */
  lemma InitializeKeepsHeld(m: Msg, w: World, size: nat, sched: seq<Attempt>, frameOk: bool)
    requires Held(m, w)
    requires GrantsFresh(w.seg, sched)
    ensures Held(InitializeChunk(m, w, size, sched, frameOk).msg, InitializeChunk(m, w, size, sched, frameOk).world)
  {
  }

  /** What an operation must keep: no double free, the chunk still held. */
  predicate KeepsHeld(r: Result<Step>) {
    match r
    case Ok(s) => Held(s.msg, s.world)
    case Err(f) => !f.NotLive?
  }

  lemma RebuildToSizeKeepsHeld(m: Msg, w: World, size: nat, sched: seq<Attempt>, frameOk: bool)
    requires Held(m, w)
    ensures KeepsHeld(Apply(m, w, RebuildToSize(size, sched, frameOk)))
  {
    CloseKeepsHeld(m, w);
    if GrantsFreshAfterClose(m, w, sched) {
      var c := CloseMessage(m, w).value;
      InitializeKeepsHeld(c.msg.(queued := false), c.world, size, sched, frameOk);
    }
  }

  lemma RebuildFromBufferKeepsHeld(m: Msg, w: World, data: seq<Byte>, ffn: Option<nat>, hint: Addr,
                                   sched: seq<Attempt>, frameOk: bool)
    requires Held(m, w)
    ensures KeepsHeld(Apply(m, w, RebuildFromBuffer(data, ffn, hint, sched, frameOk)))
  {
  }

  lemma CopyFromKeepsHeld(m: Msg, w: World, src: Msg, sched: seq<Attempt>, frameOk: bool)
    requires Held(m, w)
    ensures KeepsHeld(Apply(m, w, CopyFrom(src, sched, frameOk)))
  {
    if GrantsFresh(w.seg, sched) && m.handle == 0 && src.handle != 0 {
      InitializeKeepsHeld(m, w, GetSize(src), sched, frameOk);
    }
  }

  /** One operation keeps the chunk held and never frees it twice. */
  lemma ApplyKeepsHeld(m: Msg, w: World, op: Op)
    requires Held(m, w)
    ensures KeepsHeld(Apply(m, w, op))
  {
    match op
    case RebuildToEmpty =>
      CloseKeepsHeld(m, w);
    case RebuildToSize(size, sched, frameOk) =>
      RebuildToSizeKeepsHeld(m, w, size, sched, frameOk);
    case RebuildFromBuffer(data, ffn, hint, sched, frameOk) =>
      RebuildFromBufferKeepsHeld(m, w, data, ffn, hint, sched, frameOk);
    case ResolveData =>
    case CopyFrom(src, sched, frameOk) =>
      CopyFromKeepsHeld(m, w, src, sched, frameOk);
    case Close =>
      CloseKeepsHeld(m, w);
    case Send =>
  }

  /** Any run of operations on a message that holds its chunk never frees
      a chunk twice, and ends with the chunk still held. */
  lemma {:induction false} NoDoubleFree(m: Msg, w: World, ops: seq<Op>)
    requires Held(m, w)
    ensures KeepsHeld(Run(m, w, ops))
    decreases |ops|
  {
    if |ops| > 0 {
      ApplyKeepsHeld(m, w, ops[0]);
      var s := Apply(m, w, ops[0]);
      if s.Ok? {
        NoDoubleFree(s.value.msg, s.value.world, ops[1..]);
      }
    }
  }
}

=== FILE: message.dfy ===
/**
  The shared-memory message: its four constructors, the allocate-with-retry
  step, the three rebuilds, address resolution, copy and close. Each
  operation is a transition from the message and the world it sees to the
  new message and world, following the C++ member functions branch by branch.
 */
module MessageSHM {
  import opened SharedMemory
  import opened Meta
  import opened Allocation

  /** The fields of the C++ object. `remoteRegion` caches the base address
      of the region found by the remote-region lookup. */
  datatype Msg = Msg(
    frame: Frame,                // fMessage
    queued: bool,                // fQueued
    metaCreated: bool,           // fMetaCreated
    regionId: RegionId,          // fRegionId
    handle: Handle,              // fHandle
    size: nat,                   // fSize
    localPtr: Option<Addr>,      // fLocalPtr
    remoteRegion: Option<Addr>)  // fRemoteRegion

  /** An unmanaged region as the region constructor receives it: its id,
      never 0, and the address it is mapped at in this process. */
  type RegionKey = i: nat | 0 < i witness 1

  datatype UnmanagedRegion = UnmanagedRegion(id: RegionKey, base: Addr)

  /** Closing this message deallocates its chunk. */
  predicate WillFree(m: Msg) {
    m.handle != 0 && !m.queued && m.regionId == 0
  }

  function GetSize(m: Msg): nat {
    m.size
  }

  /** The state every constructor's member initialisers produce. */
  function Blank(): Msg {
    Msg(NoFrame, false, false, 0, 0, 0, None, None)
  }

  /** The default constructor: no chunk, no payload, an empty frame. */
  function NewEmpty(): (m: Msg)
    ensures m.handle == 0 && GetSize(m) == 0 && m.metaCreated
    ensures m.frame.IsOpen() && m.localPtr.None? && !WillFree(m)
    ensures m.frame == EmptyFrame && m.regionId == 0 && !m.queued && m.remoteRegion.None?
  {
    Blank().(frame := EmptyFrame, metaCreated := true)
  }

  // ---------------------------------------------------------------------
  // InitializeChunk

  datatype InitStatus =
    | Initialized   // returned true
    | Interrupted   // returned false: allocation failed and the interrupt flag was set
    | MetaFailed    // returned false: the envelope frame could not be created
    | StillPolling  // the schedule ended while the loop was still retrying

  datatype Init = Init(status: InitStatus, msg: Msg, world: World)

  /** The tail of InitializeChunk, after the loop: record the size and write
      the envelope into a new frame. */
  function WriteEnvelope(m: Msg, w: World, size: nat, frameOk: bool): (r: Init)
    ensures r.world == w && GetSize(r.msg) == size
    ensures r.msg.(size := m.size, frame := m.frame, metaCreated := m.metaCreated) == m
    ensures r.status == (if frameOk then Initialized else MetaFailed)
    // the envelope carries the size, the handle and the region id
    ensures frameOk ==> r.msg.frame == HeaderFrame(Envelope(size, m.handle, m.regionId)) && r.msg.metaCreated
    ensures !frameOk ==> r.msg.frame == m.frame && r.msg.metaCreated == m.metaCreated
  {
    var m1 := m.(size := size);
    if !frameOk then Init(MetaFailed, m1, w)
    else Init(Initialized, m1.(frame := HeaderFrame(Envelope(size, m1.handle, m1.regionId)), metaCreated := true), w)
  }

  /** Allocate a chunk of `size` bytes unless one is held, polling while the
      segment is full, then write the envelope. */
  function InitializeChunk(m: Msg, w: World, size: nat, sched: seq<Attempt>, frameOk: bool): (r: Init)
    requires GrantsFresh(w.seg, sched)
    // only the live set of the segment, the handle, the local pointer, the
    // size and the frame can change
    ensures r.world.regions == w.regions && r.world.mem == w.mem && r.world.seg.base == w.seg.base
    ensures r.msg.queued == m.queued && r.msg.regionId == m.regionId && r.msg.remoteRegion == m.remoteRegion
    // a held chunk is reused: nothing is allocated
    ensures m.handle != 0 ==> r.world == w && r.msg.handle == m.handle && r.msg.localPtr == m.localPtr
    // otherwise the first decisive answer of the allocator decides
    ensures m.handle == 0 && PollAllocate(sched).Got? ==>
      var h := w.seg.HandleOf(PollAllocate(sched).addr);
      && r.msg.handle == h && h != 0 && h !in w.seg.live
      && r.world.seg.live == w.seg.live[h := size]
      && r.msg.localPtr == Some(w.seg.AddressOf(h))
    ensures m.handle == 0 && !PollAllocate(sched).Got? ==>
      && r.msg == m && r.world == w
      && r.status == (if PollAllocate(sched).Stopped? then Interrupted else StillPolling)
    // what the two `false` returns and the `true` return leave behind
    ensures r.status == Initialized <==> frameOk && (m.handle != 0 || PollAllocate(sched).Got?)
    ensures r.status == MetaFailed <==> !frameOk && (m.handle != 0 || PollAllocate(sched).Got?)
    ensures r.status == Initialized ==>
      && r.msg.handle != 0 && GetSize(r.msg) == size && r.msg.metaCreated
      && r.msg.frame == HeaderFrame(Envelope(size, r.msg.handle, r.msg.regionId))
    ensures r.status == MetaFailed ==>
      && r.msg.handle != 0 && GetSize(r.msg) == size
      && r.msg.frame == m.frame && r.msg.metaCreated == m.metaCreated
  {
    if m.handle != 0 then WriteEnvelope(m, w, size, frameOk)
    else
      match PollAllocate(sched)
      case Polling => Init(StillPolling, m, w)
      case Stopped(_) => Init(Interrupted, m, w)
      case Got(a, _) =>
        GrantIsFresh(w.seg, sched);
        var m1 := m.(localPtr := Some(a), handle := w.seg.HandleOf(a));
        WriteEnvelope(m1, w.(seg := w.seg.Allocate(a, size)), size, frameOk)
  }

  /** The sized constructor. */
  function NewSized(w: World, size: nat, sched: seq<Attempt>, frameOk: bool): (r: Init)
    requires GrantsFresh(w.seg, sched)
    // it succeeds exactly when the allocator grants and the frame is created
    ensures r.status == Initialized <==> frameOk && PollAllocate(sched).Got?
    ensures r.status == MetaFailed <==> !frameOk && PollAllocate(sched).Got?
    ensures r.status == Interrupted <==> PollAllocate(sched).Stopped?
    // a granted chunk is the message's to free, even without an envelope
    ensures PollAllocate(sched).Got? ==>
      && WillFree(r.msg) && GetSize(r.msg) == size
      && r.msg.handle !in w.seg.live && r.world.seg.live == w.seg.live[r.msg.handle := size]
      && r.msg.localPtr == Some(w.seg.AddressOf(r.msg.handle))
    ensures r.status == Initialized ==> r.msg.frame == HeaderFrame(Envelope(size, r.msg.handle, 0)) && r.msg.metaCreated
    ensures r.status != Initialized ==> !r.msg.metaCreated && r.msg.frame == NoFrame
    ensures r.msg.regionId == 0 && !r.msg.queued
    // without a grant the message is as its member initialisers left it
    ensures !PollAllocate(sched).Got? ==> r.msg == Blank() && r.msg.handle == 0 && GetSize(r.msg) == 0 && r.world == w
  {
    InitializeChunk(Blank(), w, size, sched, frameOk)
  }

  // ---------------------------------------------------------------------
  // Adopting a caller's buffer

  /** How the caller's buffer was given back: through its release callback
      (identified by `fn`) with the caller's hint, or by the default `free`. */
  datatype Release = CalledBack(fn: nat, hint: Addr) | FreedByDefault

  function ReleaseOf(ffn: Option<nat>, hint: Addr): Release {
    if ffn.Some? then CalledBack(ffn.value, hint) else FreedByDefault
  }

  /** `released` is the one release of the caller's buffer, if any. */
  datatype Adopted = Adopted(init: Init, released: Option<Release>)

  /** The body shared by the adopting constructor and rebuild: initialise a
      chunk, and only if that succeeds copy the caller's bytes to the local
      pointer and release the caller's buffer. */
  function AdoptBuffer(m: Msg, w: World, data: seq<Byte>, size: nat, ffn: Option<nat>, hint: Addr,
                       sched: seq<Attempt>, frameOk: bool): (r: Result<Adopted>)
    requires size <= |data|
    requires GrantsFresh(w.seg, sched)
    ensures var i := InitializeChunk(m, w, size, sched, frameOk);
      && (r.Err? <==> i.status == Initialized && i.msg.localPtr.None?)
      && (r.Err? ==> r.fault == NullPointer)
      && (r.Ok? && i.status != Initialized ==> r.value == Adopted(i, None))
      && (r.Ok? && i.status == Initialized ==>
            && r.value.init.msg == i.msg && r.value.init.status == Initialized
            && r.value.released == Some(ReleaseOf(ffn, hint))
            && r.value.init.world.seg == i.world.seg && r.value.init.world.regions == i.world.regions
            && Read(r.value.init.world.mem, i.msg.localPtr.value, size) == data[..size]
            && forall b :: !(i.msg.localPtr.value <= b < i.msg.localPtr.value + size) ==>
                 At(r.value.init.world.mem, b) == At(w.mem, b))
  {
    var i := InitializeChunk(m, w, size, sched, frameOk);
    if i.status != Initialized then Ok(Adopted(i, None))
    else if i.msg.localPtr.None? then Err(NullPointer)
    else
      var mem := Write(i.world.mem, i.msg.localPtr.value, data[..size]);
      ReadAfterWrite(i.world.mem, i.msg.localPtr.value, data[..size]);
      Ok(Adopted(i.(world := i.world.(mem := mem)), Some(ReleaseOf(ffn, hint))))
  }

  /** The adopting constructor: on success the new chunk holds exactly the
      caller's bytes and the buffer is released once; otherwise nothing is
      copied and nothing released. */
  function NewAdopt(w: World, data: seq<Byte>, size: nat, ffn: Option<nat>, hint: Addr,
                    sched: seq<Attempt>, frameOk: bool): (r: Adopted)
    requires size <= |data|
    requires GrantsFresh(w.seg, sched)
    ensures r.init.status == Initialized <==> frameOk && PollAllocate(sched).Got?
    ensures r.init.status == MetaFailed <==> !frameOk && PollAllocate(sched).Got?
    ensures r.init.status == Interrupted <==> PollAllocate(sched).Stopped?
    // a granted chunk is the message's to free, even without an envelope
    ensures PollAllocate(sched).Got? ==>
      && WillFree(r.init.msg) && GetSize(r.init.msg) == size
      && r.init.msg.handle !in w.seg.live && r.init.world.seg.live == w.seg.live[r.init.msg.handle := size]
      && r.init.msg.localPtr == Some(w.seg.AddressOf(r.init.msg.handle))
    ensures r.init.status == Initialized ==>
      r.init.msg.metaCreated && r.init.msg.frame == HeaderFrame(Envelope(size, r.init.msg.handle, 0))
    ensures r.init.status == Initialized ==>
      && WillFree(r.init.msg) && GetSize(r.init.msg) == size
      && r.init.msg.handle !in w.seg.live && r.init.world.seg.live == w.seg.live[r.init.msg.handle := size]
      && r.init.msg.localPtr == Some(w.seg.AddressOf(r.init.msg.handle))
      && Read(r.init.world.mem, w.seg.AddressOf(r.init.msg.handle), size) == data[..size]
      && r.released == Some(ReleaseOf(ffn, hint))
    ensures r.init.status != Initialized ==> r.released == None && r.init.world.mem == w.mem
    // without a grant nothing is allocated and the message holds nothing
    ensures !PollAllocate(sched).Got? ==> r.init.msg == Blank() && r.init.world == w
  {
    var a := AdoptBuffer(Blank(), w, data, size, ffn, hint, sched, frameOk);
    assert a.Ok?;
    a.value
  }

  /** The region constructor: the message refers to `size` bytes at `data`
      inside `region`, by their offset from the region's base; nothing is
      allocated and the world is not consulted. */
  function NewInRegion(region: UnmanagedRegion, data: Addr, size: nat, frameOk: bool): (m: Msg)
    ensures m.regionId == region.id && m.regionId != 0 && !WillFree(m)
    ensures region.base + m.handle == data && m.localPtr == Some(data) && GetSize(m) == size
    ensures m.metaCreated <==> frameOk
    ensures frameOk ==> m.frame == HeaderFrame(Envelope(size, data - region.base, region.id))
    ensures !frameOk ==> m.frame == NoFrame
  {
    var m := Blank().(regionId := region.id, size := size, localPtr := Some(data), handle := data - region.base);
    if frameOk then m.(frame := HeaderFrame(Envelope(size, m.handle, m.regionId)), metaCreated := true)
    else m
  }

  // ---------------------------------------------------------------------
  // Close and rebuild

  /** `frameCloseFailed`: zmq_msg_close was called on a frame that was not
      open, which the C++ code only logs. */
  datatype Closed = Closed(msg: Msg, world: World, frameCloseFailed: bool)

  /** CloseMessage, which is also the whole destructor: deallocate the
      chunk if this message owns it and zero the handle, then close the
      frame if it was ever created. */
  function CloseMessage(m: Msg, w: World): (r: Result<Closed>)
    // the only fault is freeing a chunk that is no longer live
    ensures r.Err? <==> WillFree(m) && m.handle !in w.seg.live
    ensures r.Err? ==> r.fault == NotLive(m.handle)
    // deallocation happens exactly when the message owns the chunk
    ensures r.Ok? ==> r.value.world == w.(seg := r.value.world.seg) && r.value.world.seg.base == w.seg.base
    ensures r.Ok? ==> r.value.world.seg.live == (if WillFree(m) then w.seg.live - {m.handle} else w.seg.live)
    // afterwards the message owns nothing, so closing again frees nothing
    ensures r.Ok? ==> !WillFree(r.value.msg)
    // only the handle and the frame change; the handle only by being zeroed
    ensures r.Ok? ==> r.value.msg.(handle := m.handle, frame := m.frame) == m
    ensures r.Ok? ==> r.value.msg.handle == (if WillFree(m) then 0 else m.handle)
    ensures r.Ok? ==> r.value.msg.frame == (if m.metaCreated then ClosedFrame else m.frame)
    ensures r.Ok? ==> (r.value.frameCloseFailed <==> m.metaCreated && !m.frame.IsOpen())
  {
    var freed :- if WillFree(m) then
        var seg :- w.seg.Deallocate(w.seg.AddressOf(m.handle));
        Ok(Closed(m.(handle := 0), w.(seg := seg), false))
      else Ok(Closed(m, w, false));
    if freed.msg.metaCreated then
      Ok(freed.(msg := freed.msg.(frame := ClosedFrame), frameCloseFailed := !freed.msg.frame.IsOpen()))
    else Ok(freed)
  }

  datatype Step = Step(msg: Msg, world: World)

  /** The live chunks once `m` has been closed. */
  function LiveAfterClose(m: Msg, w: World): map<Handle, nat> {
    if WillFree(m) then w.seg.live - {m.handle} else w.seg.live
  }

  /** Close leaves a nonzero handle in place (the chunk was handed to the
      socket, or lies in a region), so the next InitializeChunk reuses it. */
  predicate KeepsHandle(m: Msg) {
    m.handle != 0 && !WillFree(m)
  }

  /** Rebuild(): close, then start over as an empty message. The size, the
      local pointer and the region id are left as they were. */
  function RebuildEmpty(m: Msg, w: World): (r: Result<Step>)
    ensures r.Err? <==> WillFree(m) && m.handle !in w.seg.live
    ensures r.Err? ==> r.fault == NotLive(m.handle)
    ensures r.Ok? ==>
      && r.value.world == w.(seg := w.seg.(live := LiveAfterClose(m, w)))
      && r.value.msg.handle == (if WillFree(m) then 0 else m.handle)
      && r.value.msg.frame == EmptyFrame && r.value.msg.metaCreated && !r.value.msg.queued
      && r.value.msg.regionId == m.regionId && GetSize(r.value.msg) == GetSize(m)
      && r.value.msg.localPtr == m.localPtr && r.value.msg.remoteRegion == m.remoteRegion
    // a chunk handed to the socket becomes this message's to free again
    ensures r.Ok? ==> (WillFree(r.value.msg) <==> m.queued && m.handle != 0 && m.regionId == 0)
  {
    var c :- CloseMessage(m, w);
    Ok(Step(c.msg.(queued := false, frame := EmptyFrame, metaCreated := true), c.world))
  }

  /** The allocator grants only chunks that are free once this message has
      been closed. */
  predicate GrantsFreshAfterClose(m: Msg, w: World, sched: seq<Attempt>) {
    match CloseMessage(m, w)
    case Ok(c) => GrantsFresh(c.world.seg, sched)
    case Err(_) => true
  }

  /** Rebuild(size): close, clear the queued flag, initialise a chunk. */
  function RebuildSized(m: Msg, w: World, size: nat, sched: seq<Attempt>, frameOk: bool): (r: Result<Init>)
    requires GrantsFreshAfterClose(m, w, sched)
    ensures r.Err? <==> WillFree(m) && m.handle !in w.seg.live
    ensures r.Err? ==> r.fault == NotLive(m.handle)
    ensures r.Ok? ==>
      && !r.value.msg.queued && r.value.msg.regionId == m.regionId
      && r.value.world == w.(seg := w.seg.(live := r.value.world.seg.live))
    // a handle close left in place is reused: nothing is allocated
    ensures KeepsHandle(m) ==>
      && r.Ok? && r.value.world == w
      && r.value.msg.handle == m.handle && r.value.msg.localPtr == m.localPtr
      && GetSize(r.value.msg) == size
      && r.value.status == (if frameOk then Initialized else MetaFailed)
    // otherwise the allocator's first decisive answer decides
    ensures r.Ok? && !KeepsHandle(m) && PollAllocate(sched).Got? ==>
      var h := w.seg.HandleOf(PollAllocate(sched).addr);
      && r.value.msg.handle == h && h !in LiveAfterClose(m, w)
      && r.value.world.seg.live == LiveAfterClose(m, w)[h := size]
      && r.value.msg.localPtr == Some(w.seg.AddressOf(h))
      && GetSize(r.value.msg) == size
      && r.value.status == (if frameOk then Initialized else MetaFailed)
    ensures r.Ok? && !KeepsHandle(m) && !PollAllocate(sched).Got? ==>
      && r.value.msg.handle == 0 && r.value.world.seg.live == LiveAfterClose(m, w)
      && GetSize(r.value.msg) == GetSize(m) && r.value.msg.localPtr == m.localPtr
      && r.value.msg.metaCreated == m.metaCreated
      && r.value.msg.frame == (if m.metaCreated then ClosedFrame else m.frame)
      && r.value.status == (if PollAllocate(sched).Stopped? then Interrupted else StillPolling)
    ensures r.Ok? && r.value.status == Initialized ==>
      r.value.msg.frame == HeaderFrame(Envelope(size, r.value.msg.handle, m.regionId)) && r.value.msg.metaCreated
  {
    var c :- CloseMessage(m, w);
    Ok(InitializeChunk(c.msg.(queued := false), c.world, size, sched, frameOk))
  }

  /** Rebuild(data, size, ffn, hint): close, clear the queued flag, adopt. */
  function RebuildAdopt(m: Msg, w: World, data: seq<Byte>, size: nat, ffn: Option<nat>, hint: Addr,
                        sched: seq<Attempt>, frameOk: bool): (r: Result<Adopted>)
    requires size <= |data|
    requires GrantsFreshAfterClose(m, w, sched)
    // a double free, or a reused handle with no local pointer to copy to
    ensures r.Err? <==> (WillFree(m) && m.handle !in w.seg.live) || (KeepsHandle(m) && frameOk && m.localPtr.None?)
    ensures WillFree(m) && m.handle !in w.seg.live ==> r == Err(NotLive(m.handle))
    ensures KeepsHandle(m) && frameOk && m.localPtr.None? ==> r == Err(NullPointer)
    ensures r.Ok? ==>
      && !r.value.init.msg.queued && r.value.init.msg.regionId == m.regionId
      && r.value.init.world.regions == w.regions && r.value.init.world.seg.base == w.seg.base
      && (r.value.init.status == Initialized <==> frameOk && (KeepsHandle(m) || PollAllocate(sched).Got?))
    // which chunk is used
    ensures r.Ok? && KeepsHandle(m) ==>
      && r.value.init.world.seg == w.seg
      && r.value.init.msg.handle == m.handle && r.value.init.msg.localPtr == m.localPtr
    ensures r.Ok? && !KeepsHandle(m) && PollAllocate(sched).Got? ==>
      var h := w.seg.HandleOf(PollAllocate(sched).addr);
      && r.value.init.msg.handle == h && h !in LiveAfterClose(m, w)
      && r.value.init.world.seg.live == LiveAfterClose(m, w)[h := size]
      && r.value.init.msg.localPtr == Some(w.seg.AddressOf(h))
    ensures r.Ok? && !KeepsHandle(m) && !PollAllocate(sched).Got? ==>
      && r.value.init.msg.handle == 0 && r.value.init.world.seg.live == LiveAfterClose(m, w)
      && r.value.init.status == (if PollAllocate(sched).Stopped? then Interrupted else StillPolling)
    // on success the caller's bytes are at the local pointer, nothing else
    // in memory changes, and the caller's buffer is released once
    ensures r.Ok? && r.value.init.status == Initialized ==>
      && r.value.init.msg.localPtr.Some? && GetSize(r.value.init.msg) == size
      && r.value.released == Some(ReleaseOf(ffn, hint))
      && var p := r.value.init.msg.localPtr.value;
         && Read(r.value.init.world.mem, p, size) == data[..size]
         && forall b :: !(p <= b < p + size) ==> At(r.value.init.world.mem, b) == At(w.mem, b)
    ensures r.Ok? && r.value.init.status == Initialized ==>
      && r.value.init.msg.metaCreated
      && r.value.init.msg.frame == HeaderFrame(Envelope(size, r.value.init.msg.handle, m.regionId))
    ensures r.Ok? && r.value.init.status != Initialized ==>
      r.value.released == None && r.value.init.world.mem == w.mem
  {
    var c :- CloseMessage(m, w);
    AdoptBuffer(c.msg.(queued := false), c.world, data, size, ffn, hint, sched, frameOk)
  }

  // ---------------------------------------------------------------------
  // GetData and Copy

  /** The address GetData returns and the message after the call. */
  datatype Data = Data(addr: Addr, msg: Msg)

  /** GetData: the local pointer if set; else, in the default segment, the
      translated handle (not remembered); else region base + handle, looking
      the region up only if it was never looked up, and remembering the
      result as the local pointer. */
  function GetData(m: Msg, w: World): (r: Result<Data>)
    // only the two caches can change
    ensures r.Ok? ==> r.value.msg.(localPtr := m.localPtr, remoteRegion := m.remoteRegion) == m
    ensures m.localPtr.Some? ==> r == Ok(Data(m.localPtr.value, m))
    ensures m.localPtr.None? && m.regionId == 0 ==> r == Ok(Data(w.seg.AddressOf(m.handle), m))
    ensures r.Err? ==> r.fault == UnknownRegion(m.regionId)
    ensures m.localPtr.None? && m.regionId != 0 ==>
      && (r.Err? <==> m.remoteRegion.None? && m.regionId !in w.regions)
      && (r.Ok? ==>
            var base := if m.remoteRegion.Some? then m.remoteRegion.value else w.regions[m.regionId];
            && r.value.addr == base + m.handle
            && r.value.msg.localPtr == Some(r.value.addr)
            && r.value.msg.remoteRegion == Some(base))
  {
    if m.localPtr.Some? then Ok(Data(m.localPtr.value, m))
    else if m.regionId == 0 then Ok(Data(w.seg.AddressOf(m.handle), m))
    else
      var base :- if m.remoteRegion.Some? then Ok(m.remoteRegion.value) else RegionBase(w, m.regionId);
      var a := base + m.handle;
      Ok(Data(a, m.(remoteRegion := Some(base), localPtr := Some(a))))
  }

  datatype CopyStatus =
    | Copied
    | TargetInitialized      // logged: target message already initialized
    | SourceUninitialized    // logged: source message not initialized
    | CopyAborted(why: InitStatus)

  datatype CopyResult = CopyResult(status: CopyStatus, msg: Msg, src: Msg, world: World)

  /** GetData reads only the segment's base and the registry, not the live set. */
  lemma GetDataIgnoresLiveSet(m: Msg, w: World, w': World)
    requires w.seg.base == w'.seg.base && w.regions == w'.regions
    ensures GetData(m, w) == GetData(m, w')
  {
  }

  /** The memcpy that completes a copy into `t`, whose chunk was just
      allocated: the target's GetData is then its local pointer. */
  function CopyBytes(t: Msg, src: Msg, w: World): (r: Result<CopyResult>)
    requires t.localPtr.Some?
    ensures r.Err? <==> GetData(src, w).Err?
    ensures r.Err? ==> r.fault == UnknownRegion(src.regionId)
    ensures r.Ok? ==>
      && r.value == CopyResult(Copied, t, GetData(src, w).value.msg, r.value.world)
      && r.value.world.seg == w.seg && r.value.world.regions == w.regions
      && Read(r.value.world.mem, t.localPtr.value, GetSize(src))
         == Read(w.mem, GetData(src, w).value.addr, GetSize(src))
  {
    var from :- GetData(src, w);
    var bytes := Read(w.mem, from.addr, GetSize(src));
    ReadAfterWrite(w.mem, t.localPtr.value, bytes);
    Ok(CopyResult(Copied, t, from.msg, w.(mem := Write(w.mem, t.localPtr.value, bytes))))
  }

  /** The memcpy of a copy leaves the source's bytes as they were unless
      the source and the target's chunk overlap. That they do not overlap
      is assumed here: the segment records chunk sizes, but the allocator's
      promise (`CanGrant`) is stated for handles, not byte ranges. */
  lemma CopyKeepsSourceBytes(t: Msg, src: Msg, w: World)
    requires t.localPtr.Some? && GetData(src, w).Ok?
    requires var a := GetData(src, w).value.addr;
      t.localPtr.value + GetSize(src) <= a || a + GetSize(src) <= t.localPtr.value
    ensures CopyBytes(t, src, w).Ok?
    ensures var a := GetData(src, w).value.addr;
      Read(CopyBytes(t, src, w).value.world.mem, a, GetSize(src)) == Read(w.mem, a, GetSize(src))
  {
    var a := GetData(src, w).value.addr;
    ReadAcrossWrite(w.mem, t.localPtr.value, Read(w.mem, a, GetSize(src)), a, GetSize(src));
  }

  /** Copy(src): only into a message with no chunk, and only from a message
      with one; the copy lands in a fresh chunk of the default segment. The
      source's address is obtained through its own GetData, which may fill
      its caches. */
  function Copy(m: Msg, src: Msg, w: World, sched: seq<Attempt>, frameOk: bool): (r: Result<CopyResult>)
    requires GrantsFresh(w.seg, sched)
    // rejected copies change nothing
    ensures m.handle != 0 ==> r == Ok(CopyResult(TargetInitialized, m, src, w))
    ensures m.handle == 0 && src.handle == 0 ==> r == Ok(CopyResult(SourceUninitialized, m, src, w))
    // the source changes at most in its caches
    ensures r.Ok? ==> r.value.src.(localPtr := src.localPtr, remoteRegion := src.remoteRegion) == src
    // a failed allocation copies nothing
    ensures r.Ok? && r.value.status.CopyAborted? ==> r.value.world.mem == w.mem
    // otherwise the copy happens exactly when the allocator grants, the frame
    // is created and the source's address can be resolved
    ensures m.handle == 0 && src.handle != 0 ==>
      (r.Err? <==> PollAllocate(sched).Got? && frameOk && GetData(src, w).Err?)
    ensures m.handle == 0 && src.handle != 0 && PollAllocate(sched).Got? && frameOk && GetData(src, w).Ok? ==>
      r.Ok? && r.value.status == Copied
    ensures m.handle == 0 && src.handle != 0 && !PollAllocate(sched).Got? ==>
      r == Ok(CopyResult(CopyAborted(if PollAllocate(sched).Stopped? then Interrupted else StillPolling), m, src, w))
    // without a frame the target keeps the chunk it was given, unfilled
    ensures m.handle == 0 && src.handle != 0 && PollAllocate(sched).Got? && !frameOk ==>
      var h := w.seg.HandleOf(PollAllocate(sched).addr);
      && r.Ok? && r.value.status == CopyAborted(MetaFailed) && r.value.src == src
      && r.value.msg.handle == h && h !in w.seg.live
      && r.value.world.seg.live == w.seg.live[h := GetSize(src)]
      && GetSize(r.value.msg) == GetSize(src)
      && r.value.msg.frame == m.frame && r.value.msg.metaCreated == m.metaCreated
      && r.value.msg.regionId == m.regionId && r.value.msg.queued == m.queued
      && r.value.msg.remoteRegion == m.remoteRegion
    // a completed copy: a fresh chunk of the source's size holding its bytes
    ensures r.Ok? && r.value.status == Copied ==>
      && m.handle == 0 && src.handle != 0 && GetData(src, w).Ok?
      && GetSize(r.value.msg) == GetSize(src)
      && r.value.msg.handle !in w.seg.live
      && r.value.world.seg.live == w.seg.live[r.value.msg.handle := GetSize(src)]
      && r.value.msg.regionId == m.regionId && r.value.msg.queued == m.queued
      && r.value.msg.remoteRegion == m.remoteRegion
      && r.value.msg.metaCreated
      && r.value.msg.frame == HeaderFrame(Envelope(GetSize(src), r.value.msg.handle, m.regionId))
      // the target owns, and will free, the chunk it was given
      && (m.regionId == 0 && !m.queued ==> WillFree(r.value.msg))
      && r.value.msg.localPtr == Some(w.seg.AddressOf(r.value.msg.handle))
      && Read(r.value.world.mem, w.seg.AddressOf(r.value.msg.handle), GetSize(src))
         == Read(w.mem, GetData(src, w).value.addr, GetSize(src))
    ensures r.Err? ==> r.fault.UnknownRegion?
  {
    if m.handle != 0 then Ok(CopyResult(TargetInitialized, m, src, w))
    else if src.handle == 0 then Ok(CopyResult(SourceUninitialized, m, src, w))
    else
      var i := InitializeChunk(m, w, GetSize(src), sched, frameOk);
      if i.status != Initialized then Ok(CopyResult(CopyAborted(i.status), i.msg, src, i.world))
      else
        GetDataIgnoresLiveSet(src, w, i.world);
        CopyBytes(i.msg, src, i.world)
  }
}

=== FILE: meta.dfy ===
/**
  The small record a shared-memory message sends over the socket in place of
  its payload, and the socket-library frame that carries it.
 */
module Meta {
  import opened SharedMemory

  /** MetaHeader: where the payload lives and how long it is. */
  datatype Envelope = Envelope(size: nat, handle: Handle, regionId: RegionId)

  /** The zmq message (fMessage) owned by a shared-memory message: not yet
      initialised, initialised empty, initialised holding an envelope, or
      closed again. */
  datatype Frame = NoFrame | EmptyFrame | HeaderFrame(env: Envelope) | ClosedFrame {

    /** Closing succeeds only on an initialised, not yet closed frame. */
    predicate IsOpen() {
      EmptyFrame? || HeaderFrame?
    }
  }
}

=== FILE: ownership.dfy ===
/**
  Ownership of chunks: a message that will deallocate on close must name a
  live chunk, every operation keeps that so, and then close never frees
  twice; region messages never free.
 */
module Ownership {
  import opened SharedMemory
  import opened Allocation
  import opened MessageSHM

  /** A message that will deallocate on close names a chunk the segment
      still holds. */
  predicate Sound(m: Msg, w: World) {
    WillFree(m) ==> m.handle in w.seg.live
  }

  /** Every constructor yields a sound message. */
  lemma ConstructorsAreSound(w: World, data: seq<Byte>, size: nat, ffn: Option<nat>, hint: Addr,
                             sched: seq<Attempt>, frameOk: bool, region: UnmanagedRegion, at: Addr)
    requires size <= |data|
    requires GrantsFresh(w.seg, sched)
    ensures Sound(NewEmpty(), w)
    ensures Sound(NewSized(w, size, sched, frameOk).msg, NewSized(w, size, sched, frameOk).world)
    ensures var a := NewAdopt(w, data, size, ffn, hint, sched, frameOk); Sound(a.init.msg, a.init.world)
    ensures Sound(NewInRegion(region, at, size, frameOk), w)
  {
  }

  /** Closing a sound message never frees twice: it succeeds, frees at most
      the message's own chunk, and a second close (the destructor after an
      explicit close) frees nothing more. */
  lemma CloseFreesAtMostOnce(m: Msg, w: World)
    requires Sound(m, w)
    ensures CloseMessage(m, w).Ok?
    ensures var c := CloseMessage(m, w).value;
      && w.seg.live.Keys - c.world.seg.live.Keys <= {m.handle}
      && Sound(c.msg, c.world)
      && CloseMessage(c.msg, c.world).Ok?
      && CloseMessage(c.msg, c.world).value.world == c.world
  {
  }

  /** A message built on an unmanaged region never deallocates: closing it,
      closing it twice, or Rebuild() leaves the world as it was. (Rebuild
      with a size may allocate; see AsWritten.RegionBaseLooksUninitialized.) */
  lemma RegionMessageNeverFrees(region: UnmanagedRegion, data: Addr, size: nat, frameOk: bool, w: World)
    ensures var m := NewInRegion(region, data, size, frameOk);
      && CloseMessage(m, w).Ok? && CloseMessage(m, w).value.world == w
      && RebuildEmpty(m, w).Ok? && RebuildEmpty(m, w).value.world == w
      && RebuildEmpty(m, w).value.msg.handle == data - region.base
      && var c := CloseMessage(m, w).value;
         CloseMessage(c.msg, c.world).Ok? && CloseMessage(c.msg, c.world).value.world == w
  {
  }

  /** InitializeChunk keeps a message sound. */
  lemma InitializeKeepsSound(m: Msg, w: World, size: nat, sched: seq<Attempt>, frameOk: bool)
    requires GrantsFresh(w.seg, sched)
    requires Sound(m, w)
    ensures var i := InitializeChunk(m, w, size, sched, frameOk); Sound(i.msg, i.world)
  {
  }

  /** The rebuilds keep a message sound, provided the chunk it names is
      still live if it had been handed to the socket (the queued flag is
      cleared before the chunk is reused). */
  lemma RebuildKeepsSound(m: Msg, w: World, data: seq<Byte>, size: nat, ffn: Option<nat>, hint: Addr,
                          sched: seq<Attempt>, frameOk: bool)
    requires size <= |data|
    requires GrantsFreshAfterClose(m, w, sched)
    requires Sound(m.(queued := false), w)
    ensures RebuildEmpty(m, w).Ok? && Sound(RebuildEmpty(m, w).value.msg, RebuildEmpty(m, w).value.world)
    ensures RebuildSized(m, w, size, sched, frameOk).Ok?
    ensures var i := RebuildSized(m, w, size, sched, frameOk).value; Sound(i.msg, i.world)
    ensures var a := RebuildAdopt(m, w, data, size, ffn, hint, sched, frameOk);
      a.Ok? ==> Sound(a.value.init.msg, a.value.init.world)
  {
  }

  /** Copy keeps both messages sound, and the target never ends up owning
      the source's chunk. */
  lemma CopyKeepsSound(m: Msg, src: Msg, w: World, sched: seq<Attempt>, frameOk: bool)
    requires GrantsFresh(w.seg, sched)
    requires Sound(m, w) && Sound(src, w)
    ensures var r := Copy(m, src, w, sched, frameOk);
      r.Ok? ==>
        && Sound(r.value.msg, r.value.world) && Sound(r.value.src, r.value.world)
        && (r.value.status == Copied && WillFree(src) ==> r.value.msg.handle != src.handle)
  {
    var r := Copy(m, src, w, sched, frameOk);
    if m.handle == 0 && src.handle != 0 {
      InitializeKeepsSound(m, w, GetSize(src), sched, frameOk);
    }
  }

  /** A default-constructed message holds nothing: its size is 0, closing it
      frees nothing, and it cannot be the source of a copy. */
  lemma EmptyMessageHoldsNothing(w: World, target: Msg, sched: seq<Attempt>, frameOk: bool)
    requires GrantsFresh(w.seg, sched)
    requires target.handle == 0
    ensures GetSize(NewEmpty()) == 0
    ensures CloseMessage(NewEmpty(), w).Ok? && CloseMessage(NewEmpty(), w).value.world == w
    ensures Copy(target, NewEmpty(), w, sched, frameOk) == Ok(CopyResult(SourceUninitialized, target, NewEmpty(), w))
  {
  }
}

=== FILE: resolution.dfy ===
/**
  Resolving a message's address with GetData, and how the envelope that
  travels over the socket lets a receiver in another process find the same
  payload and size again.
 */
module Resolution {
  import opened SharedMemory
  import opened Meta
  import opened Allocation
  import opened MessageSHM

  /** The message the receive path of the socket builds from an envelope
      (that path is not part of this model): the envelope's three fields,
      nothing resolved yet. */
  function Received(env: Envelope): Msg {
    Msg(HeaderFrame(env), false, true, env.regionId, env.handle, env.size, None, None)
  }

  /** GetSize reports the size the envelope carries: after a successful
      InitializeChunk, and for a received message. */
  lemma SizeTravelsWithEnvelope(m: Msg, w: World, size: nat, sched: seq<Attempt>, frameOk: bool, env: Envelope)
    requires GrantsFresh(w.seg, sched)
    ensures var i := InitializeChunk(m, w, size, sched, frameOk);
      i.status == Initialized ==>
        && GetSize(i.msg) == size
        && i.msg.frame.HeaderFrame? && GetSize(Received(i.msg.frame.env)) == size
    ensures GetSize(Received(env)) == env.size
  {
  }

  /** Resolving a region message's address is done once: afterwards GetData
      returns the same address without consulting the registry, whatever it
      now holds. */
  lemma RegionResolutionIsCached(m: Msg, w: World, later: World)
    requires m.regionId != 0
    requires GetData(m, w).Ok?
    ensures var d := GetData(m, w).value;
      && d.msg.localPtr == Some(d.addr)
      && (m.localPtr.None? ==> d.msg.remoteRegion.Some?)
      && GetData(d.msg, later) == Ok(d)
  {
  }

  /** A region message looks its region up only when it has no cached
      region: with one, the registry is not consulted at all. */
  lemma RegionLookupAtMostOnce(m: Msg, w: World, w': World)
    requires m.regionId != 0 && m.remoteRegion.Some?
    requires w.seg == w'.seg
    ensures GetData(m, w) == GetData(m, w')
  {
  }

  /** A default-segment message without a local pointer is not cached: each
      GetData translates the handle again, leaves the message as it was, and
      follows the segment's current mapping. */
  lemma SegmentResolutionIsNotCached(m: Msg, w: World, later: World)
    requires m.regionId == 0 && m.localPtr.None?
    ensures GetData(m, w).Ok? && GetData(m, w).value.msg == m
    ensures GetData(m, later).Ok?
    ensures GetData(m, later).value.addr == GetData(m, w).value.addr <==> later.seg.base == w.seg.base
  {
  }

  /** The envelope of a region message lets a receiver find the payload: in
      a process that maps the region at `base'`, the received message's
      data lies at the same offset from `base'`, and it reports the same
      size. */
  lemma RegionEnvelopeLocatesPayload(region: UnmanagedRegion, data: Addr, size: nat, w: World)
    requires region.id in w.regions
    ensures var m := NewInRegion(region, data, size, true);
      && m.frame.HeaderFrame?
      && GetData(Received(m.frame.env), w).Ok?
      && GetData(Received(m.frame.env), w).value.addr - w.regions[region.id] == data - region.base
      && GetSize(Received(m.frame.env)) == GetSize(m)
    ensures w.regions[region.id] == region.base ==>
      GetData(Received(NewInRegion(region, data, size, true).frame.env), w).value.addr == data
  {
  }

  /** The envelope of a freshly allocated message lets a receiver in the
      same mapping find the payload at the address the sender wrote to. */
  lemma SegmentEnvelopeLocatesPayload(w: World, size: nat, sched: seq<Attempt>, later: World)
    requires GrantsFresh(w.seg, sched)
    requires later.seg.base == w.seg.base
    ensures var r := NewSized(w, size, sched, true);
      r.status == Initialized ==>
        && r.msg.frame.HeaderFrame?
        && GetData(Received(r.msg.frame.env), later) == Ok(Data(r.msg.localPtr.value, Received(r.msg.frame.env)))
        && GetSize(Received(r.msg.frame.env)) == size
  {
  }
}

=== FILE: shared_memory.dfy ===
/**
  The collaborators a shared-memory message relies on, reduced to what the
  message needs from them:
  - the default managed segment, mapped at `base` in this process; a chunk
    is named by its handle, the offset of its first byte from `base`, and
    the segment keeps the size of every chunk it has handed out and not
    taken back;
  - the registry of unmanaged regions, giving the address at which a region
    with a given id is mapped in this process;
  - the process's memory, byte by byte, which `memcpy` reads and writes.
  Faults that the C++ code turns into undefined behaviour or a fatal error
  are values of `Fault`, so the model can show when they are reached.
 */
module SharedMemory {

  type Byte = bv8

  /** A process-local address. */
  type Addr = int

  /** An offset from a segment's or region's base. 0 also means "no chunk". */
  type Handle = int

  /** 0 names the default segment; every unmanaged region has a positive id. */
  type RegionId = nat

  datatype Option<+T> = None | Some(value: T)

  datatype Fault =
    | NotLive(handle: Handle)      // deallocating a chunk the segment does not hold
    | UnknownRegion(id: RegionId)  // no region with this id can be found
    | NullPointer                  // memcpy through a pointer that was never set
    | BadGrant                     // the allocator broke its contract (see CanGrant)

  /** Success or a fault; usable with `:-`. */
  datatype Result<+T> = Ok(value: T) | Err(fault: Fault) {

    predicate IsFailure() {
      Err?
    }

    function PropagateFailure<U>(): Result<U>
      requires Err?
    {
      Err(fault)
    }

    function Extract(): T
      requires Ok?
    {
      value
    }
  }

  /** The default managed segment: `live` maps the handle of every chunk
      handed out and not taken back to the number of bytes asked for. */
  datatype Segment = Segment(base: Addr, live: map<Handle, nat>) {

    /** get_address_from_handle */
    function AddressOf(h: Handle): Addr {
      base + h
    }

    /** get_handle_from_address */
    function HandleOf(a: Addr): Handle {
      a - base
    }

    /** What the allocator promises of an address it grants: the chunk there
        is not live, and its handle is not 0 (the segment's own bookkeeping
        sits at offset 0). */
    predicate CanGrant(a: Addr) {
      HandleOf(a) != 0 && HandleOf(a) !in live
    }

    /** The segment after granting a chunk of `size` bytes at `a`. */
    function Allocate(a: Addr, size: nat): Segment
      requires CanGrant(a)
    {
      this.(live := live[HandleOf(a) := size])
    }

    /** deallocate: taking back a chunk that is not live is a double free. */
    function Deallocate(a: Addr): Result<Segment> {
      if HandleOf(a) in live then Ok(this.(live := live - {HandleOf(a)}))
      else Err(NotLive(HandleOf(a)))
    }
  }

  /** Byte-addressed memory; an address never written reads as 0, standing
      for the unspecified contents of fresh memory. */
  type Memory = map<Addr, Byte>

  function At(mem: Memory, a: Addr): Byte {
    if a in mem then mem[a] else 0
  }

  /** The `n` bytes starting at `a`. */
  function Read(mem: Memory, a: Addr, n: nat): (bytes: seq<Byte>)
    ensures |bytes| == n
    ensures forall i :: 0 <= i < n ==> bytes[i] == At(mem, a + i)
  {
    seq(n, i requires 0 <= i < n => At(mem, a + i))
  }

  /** memcpy of `data` to address `a`. */
  function Write(mem: Memory, a: Addr, data: seq<Byte>): (mem': Memory)
    ensures forall b :: a <= b < a + |data| ==> At(mem', b) == data[b - a]
    ensures forall b :: !(a <= b < a + |data|) ==> At(mem', b) == At(mem, b)
    decreases |data|
  {
    if |data| == 0 then mem
    else Write(mem[a := data[0]], a + 1, data[1..])
  }

  /** Reading back what was just written yields it. */
  lemma ReadAfterWrite(mem: Memory, a: Addr, data: seq<Byte>)
    ensures Read(Write(mem, a, data), a, |data|) == data
  {
    var r := Read(Write(mem, a, data), a, |data|);
    forall i | 0 <= i < |data|
      ensures r[i] == data[i]
    {
      assert r[i] == At(Write(mem, a, data), a + i);
    }
  }

  /** A write leaves every byte range it does not overlap as it was. */
  lemma ReadAcrossWrite(mem: Memory, a: Addr, data: seq<Byte>, b: Addr, n: nat)
    requires b + n <= a || a + |data| <= b
    ensures Read(Write(mem, a, data), b, n) == Read(mem, b, n)
  {
    var r := Read(Write(mem, a, data), b, n);
    forall i | 0 <= i < n
      ensures r[i] == Read(mem, b, n)[i]
    {
      assert r[i] == At(Write(mem, a, data), b + i);
    }
  }

  /** Everything outside the message object that its operations touch. */
  datatype World = World(seg: Segment, regions: map<RegionId, Addr>, mem: Memory)

  /** GetRemoteRegion: the base address of region `id` as mapped here. */
  function RegionBase(w: World, id: RegionId): Result<Addr> {
    if id in w.regions then Ok(w.regions[id]) else Err(UnknownRegion(id))
  }
}
